=== FILE: README.md ===
# WebGL museum demo: vector algebra and scene builder

This project models the pure core of a small WebGL demo. The demo draws a
spinning colour cube, a floating gold pyramid and a grey floor. The model
has four modules:

- `LinearAlgebra` (linear_algebra.dfy) covers the helpers of `MV.js`:
  - the constructors `vec2`, `vec3`, `vec4` and `mat4`;
  - element-wise `add`, `subtract` and `scale`, plus `dot` and `cross`;
  - `transpose` and `translate`;
  - `rotate`, with the cosine and sine of the angle passed in as plain
    numbers;
  - the `flatten` serialiser that turns vectors and matrices into the flat
    float buffer WebGL uploads.
- `Scene` (scene.dfy) covers the geometry builders of `file.js`: `quad`,
  `colorCube`, `createPyramid`, `createGround` and `createMuseumScene`.
  They append vertex positions and colours to two parallel lists and record
  how many vertices each object added.
- `Render` (render.dfy) covers one frame of `render()`:
  - the three `drawArrays` ranges computed from those counters;
  - the cube's model matrix, built by chaining three `rotate` calls.
- `Controls` (controls.dfy) covers the two state updates:
  - the per-frame `theta[axis] += 2.0`, with the axis buttons that choose
    `axis`;
  - the arrow-key handler that changes `yaw` and `pitch`.

Vectors are `seq<real>` and matrices are `seq<seq<real>>`. A builder is a
function from the pair of lists to the extended pair. Arithmetic is exact
real arithmetic.

Two behaviours of the code are modelled as written, although a reader of
the code might expect otherwise:

- **Matrix tag.** `flatten` transposes only an input that carries a
  `matrix === true` tag. None of `mat4`, `translate` and `rotate` set that
  tag, so every matrix is serialised row by row. The model's `Flatten`
  branches on the tag exactly as the code does. `Render.CubeModelUploadReversed`
  states what this means for the cube's uploaded rotation.
- **`rotate` ignores its matrix argument.** It always starts from the
  identity. The chain `rotate(rotate(rotate(mat4(), θx, X), θy, Y), θz, Z)`
  in `render()` therefore equals the last rotation alone
  (`Render.CubeModelKeepsOnlyLast`). Since `axis` starts at 0 and only the
  z button selects axis 2, the cube does not turn at all until the z
  button is pressed (`Render.CubeStillUntilZ` for frames about x alone,
  `Render.CubeStillWithoutZ` for any mix of x and y frames).

## Model

| member | source | states |
|---|---|---|
| LinearAlgebra.Vec2 | MV.js:3-5 | the result has length 2, with components x and y in order |
| LinearAlgebra.Vec3 | MV.js:7-9 | the result has length 3, with components x, y and z in order |
| LinearAlgebra.Vec4 | MV.js:11-13 | the result has length 4, with components x, y, z and w in order |
| LinearAlgebra.Mat4 | MV.js:15-23 | the result is 4×4, and entry [i][j] is 1 on the diagonal and 0 elsewhere |
| LinearAlgebra.Transpose | MV.js:93-102 | a non-empty rectangular m with R rows and C columns gives C rows of R entries, and entry [i][j] is m[j][i] |
| LinearAlgebra.TransposeInvolution | MV.js:93-102 | transposing twice gives back the original rectangular matrix |
| LinearAlgebra.Add | MV.js:104-110 | the result has the length of u, and entry i is u[i] + v[i] |
| LinearAlgebra.Subtract | MV.js:112-118 | the result has the length of u, and entry i is u[i] - v[i] |
| LinearAlgebra.Scale | MV.js:120-126 | the result has the length of v, and entry i is s * v[i] |
| LinearAlgebra.SubtractUndoesAdd | MV.js:104-118 | for equal lengths, subtract(add(u, v), v) is u |
| LinearAlgebra.AddCommutes | MV.js:104-110 | for equal lengths, add(u, v) is add(v, u) |
| LinearAlgebra.Dot | MV.js:128-134 | no ensures of its own: the sum over the indices of u, accumulated from the first component to the last. Dot3, DotCommutes, DotIgnoresTail and DotSelfNonNegative specify it |
| LinearAlgebra.Dot3 | MV.js:128-134 | for 3-vectors, the sum the loop accumulates is u0v0 + u1v1 + u2v2 |
| LinearAlgebra.DotCommutes | MV.js:128-134 | for equal lengths, dot(u, v) is dot(v, u) |
| LinearAlgebra.DotIgnoresTail | MV.js:128-134 | dot reads v only at the indices of u, so entries of v past the length of u do not matter |
| LinearAlgebra.DotSelfNonNegative | MV.js:128-134 | dot(u, u) is at least 0 |
| LinearAlgebra.Cross | MV.js:136-142 | the result has three components; its size is given by CrossLagrange, its direction by CrossOrthogonal and CrossBasis |
| LinearAlgebra.CrossLagrange | MV.js:136-142 | Lagrange's identity: the squared length of cross(u, v) is \|u\|²·\|v\|² − (u·v)², lengths and dot product taken over the first three components |
| LinearAlgebra.CrossBasis | MV.js:136-142 | x × y = z, y × z = x and z × x = y |
| LinearAlgebra.CrossAntiCommutes | MV.js:136-142 | cross(u, v) is scale(-1, cross(v, u)) |
| LinearAlgebra.CrossOrthogonal | MV.js:128-142 | for 3-vectors, cross(u, v) is orthogonal to both u and v |
| LinearAlgebra.Translate | MV.js:176-182 | the result is 4×4, holds x, y and z at [0][3], [1][3] and [2][3], and equals the identity at every other entry |
| LinearAlgebra.TranslateRows | MV.js:176-182 | translate(x, y, z) is the identity with x, y and z down the last column |
| LinearAlgebra.Rotate | MV.js:153-174 | the result is 4×4, its last row is (0, 0, 0, 1), and its last column is zero above that row |
| LinearAlgebra.RotateIgnoresBase | MV.js:153-174 | the result does not depend on the matrix argument m |
| LinearAlgebra.RotateReverseIsTranspose | MV.js:153-174 | rotating by the opposite angle (same cosine, negated sine) gives the transpose |
| LinearAlgebra.RotateAboutZ | MV.js:153-174 | about the z axis, the result is the planar rotation [[c, -s], [s, c]] in the upper-left corner and the identity elsewhere |
| LinearAlgebra.ConcatLength | MV.js:40-46 | the nested loops of flatten visit R·C entries for R rows of C columns |
| LinearAlgebra.ConcatIndex | MV.js:40-46 | the nested loops visit entry [i][j] at position i·C + j |
| LinearAlgebra.Fill | MV.js:38-51 | a Float32Array of n slots written with xs keeps the first min(n, |xs|) values of xs and holds 0 in every slot past xs |
| LinearAlgebra.Flatten | MV.js:25-54 | the buffer has the length the source allocates: the flat length for a flat array, and R·C for R rows whose first row has C entries, whether tagged or not (an empty list gives an empty buffer). Its contents are specified by FlattenLoop, FlattenRowMajor, FlattenColumnMajor and FlattenTaggedIsTransposed |
| LinearAlgebra.FlattenFlatCopies | MV.js:47-51 | a flat array is copied element by element, with the same length |
| LinearAlgebra.FlattenRowMajor | MV.js:25-54 | an untagged non-empty rectangular array gives R·C floats, with output[i·C + j] = v[i][j] |
| LinearAlgebra.FlattenColumnMajor | MV.js:25-54 | a tagged non-empty rectangular array gives R·C floats, with output[j·R + i] = v[i][j] |
| LinearAlgebra.FlattenTaggedIsTransposed | MV.js:26-28 | with the matrix tag set, flatten(v) equals the untagged flatten of transpose(v) |
| LinearAlgebra.FlattenLoop | MV.js:25-54 | the loops of flatten, including the Float32Array of size n that drops writes past n and zero-fills short rows, compute Flatten |
| LinearAlgebra.FlattenIdentity | MV.js:15-54 | mat4() serialises to the same 16 floats with or without the tag |
| LinearAlgebra.FlattenFourRows | MV.js:25-54 | an untagged 4×4 matrix serialises to its four rows one after another |
| LinearAlgebra.FlattenTranslateRowMajor | MV.js:176-182 | untagged, as translate leaves it, translate(x, y, z) serialises row-major with x, y and z at floats 3, 7 and 11 |
| LinearAlgebra.FlattenTranslateTagged | MV.js:26-28 | tagged, translate(x, y, z) would serialise column-major with x, y and z at floats 12, 13 and 14 |
| Scene.EmitCorners | file.js:183-187 | the push loop of quad appends table[index] to positions and to colours for each index, in order, and leaves the prefix alone |
| Scene.EmitUniform | file.js:123-127 | the push loops of createPyramid and createGround append vertices[index] for each index, and one fixed colour per vertex |
| Scene.Quad | file.js:155-188 | quad(a, b, c, d) appends the corners [a, b, c, a, c, d] to positions and the matching corner colours to colours |
| Scene.QuadMatchesCorners | file.js:183-187 | each appended vertex has the colour of the corner its position comes from |
| Scene.ColorCube | file.js:146-153 | colorCube appends the 36 triangle corners of the six faces, each position with its corner's colour |
| Scene.ColorCubeIsOneLoop | file.js:146-153 | the six quad calls amount to one push loop over all 36 corners |
| Scene.EmitCornersAppend | file.js:183-187 | running the quad push loop over two index lists in turn is running it over their concatenation |
| Scene.CubeTriangleCornersTable | file.js:146-153 | the 36 corner indices colorCube visits, face by face, are 1,0,3,1,3,2, 2,3,7,2,7,6, 3,0,4,3,4,7, 6,5,1,6,1,2, 4,5,6,4,6,7, 5,4,0,5,0,1 |
| Scene.CornerOnCube | file.js:156-165 | each of the eight cube corners has coordinates ±0.5 and w = 1 |
| Scene.CubeVerticesDistinct | file.js:156-165 | the eight cube corners are pairwise distinct |
| Scene.ColorCubeAt | file.js:146-187 | vertex k that colorCube appends has the position and the colour of the corner its k-th index names, and that index is below 8 |
| Scene.FaceCornersOnSide | file.js:146-153 | the six corner indices of face f all name corners on that face's side |
| Scene.CubeColorFollowsPosition | file.js:146-187 | two cube vertices at the same position always have the same colour |
| Scene.CubeColorsDistinct | file.js:166-177 | the eight corner colours are pairwise distinct, so each corner has a colour of its own |
| Scene.CubePositionFollowsColor | file.js:146-187 | the converse of CubeColorFollowsPosition: two cube vertices with the same colour sit at the same position |
| Scene.CubeVerticesOnCorners | file.js:156-165 | every cube vertex has coordinates ±0.5 and w = 1 |
| Scene.CubeFacesAreSides | file.js:146-153 | the six vertices of face f all lie on one side of the cube (a fixed coordinate at ±0.5) |
| Scene.FaceSidesDistinct | file.js:146-153 | no two faces lie on the same side |
| Scene.CreatePyramid | file.js:114-128 | createPyramid appends the 12 vertices picked by [0,1,2,0,2,3,0,3,4,0,4,1] from the five offset vertices, and 12 gold colours |
| Scene.PyramidVertex | file.js:115-121 | vertex 0 is the apex (x, y+1, z); vertices 1 to 4 are base corners at y-1, x±1, z±1 |
| Scene.PyramidApexFirst | file.js:123 | the pyramid index list names the apex exactly at every third position, and every index is below 5 |
| Scene.PyramidShape | file.js:114-128 | every third pyramid vertex is the apex (x, y+1, z); the others are base corners at y-1, x±1, z±1; every colour is (1.0, 0.8, 0.0, 1.0) |
| Scene.CreateGround | file.js:130-144 | createGround appends the 6 vertices picked by [0,1,2,0,2,3] from the four floor corners, and 6 dark-grey colours |
| Scene.GroundShape | file.js:130-144 | every floor vertex has y = -1, x and z equal to ±10, and colour (0.3, 0.3, 0.3, 1.0) |
| Scene.GroundVertexLevel | file.js:132-137 | all four floor corners have y = -1 |
| Scene.SceneColorsLayout | file.js:91-102 | the scene's colours are 54 long: after the cube's 36 come 12 gold and then 6 dark grey |
| Scene.SceneGroundLevel | file.js:91-102 | the last six scene positions are floor vertices at y = -1 |
| Scene.CreateMuseumScene | file.js:91-102 | the scene appends cube, pyramid at (0, 1, -2) and floor, in that order; the counters are (previous length + 36), 12 and 6, and they sum to the final length |
| Scene.QuadKeepsListsParallel | file.js:183-187 | quad only appends, six positions and six colours, so parallel lists stay parallel and their prefixes unchanged |
| Scene.ColorCubeKeepsListsParallel | file.js:146-153 | colorCube only appends, 36 positions and 36 colours, keeping the lists parallel and their prefixes unchanged |
| Scene.PyramidKeepsListsParallel | file.js:124-127 | createPyramid only appends, 12 positions and 12 colours, keeping the lists parallel and their prefixes unchanged |
| Scene.GroundKeepsListsParallel | file.js:140-143 | createGround only appends, 6 positions and 6 colours, keeping the lists parallel and their prefixes unchanged |
| Scene.SceneKeepsListsParallel | file.js:91-102 | the whole scene only appends, 54 positions and 54 colours, keeping the lists parallel and their prefixes unchanged |
| Scene.ExtendsTransitive | file.js:91-102 | appending in two steps extends the lists by the sum of the two counts |
| Render.DrawRanges | file.js:244-258 | the cube is drawn from 0, the pyramid right after it and the floor right after the pyramid, each range as long as its counter. Together they draw every vertex below the total exactly once without reaching past it |
| Render.SceneDrawnOnce | file.js:91-102 | whatever the lists held before the scene was built, the draw ranges cover the whole vertex list exactly once |
| Render.FreshSceneRanges | file.js:41-50 | from the empty lists, the draw ranges are cube [0, 36), pyramid [36, 48) and floor [48, 54), and the lists hold 54 vertices |
| Render.FreshSceneColors | file.js:91-102 | in the fresh scene, vertices 36 to 47 are gold and vertices 48 to 53 are dark grey |
| Render.FreshSceneFloor | file.js:91-102 | in the fresh scene, vertices 48 to 53 lie on the plane y = -1 |
| Render.CubeModel | file.js:254-256 | the chained rotation is a 4×4 matrix. What it equals is stated by CubeModelKeepsOnlyLast |
| Render.CubeModelKeepsOnlyLast | file.js:253-256 | the chained x, y and z rotations equal the z rotation alone, whatever the x and y angles are |
| Render.CubeModelUploadReversed | file.js:253-257 | the untagged cube matrix serialises row-major, so read column-major it is the z rotation by the opposite angle |
| Render.CubeStillUntilZ | file.js:235-256 | from theta = [0, 0, 0] and axis 0, theta[2] stays 0 however many frames pass, and with the cosine 1 and sine 0 of that angle the cube's model matrix is the identity |
| Render.CubeStillWithoutZ | file.js:235-256 | from theta = [0, 0, 0], after any run of frames about x and y in any order, theta[2] is still 0 and the cube's model matrix is the identity |
| Controls.Press | file.js:78-86 | the x, y and z buttons store axis 0, 1 and 2 respectively |
| Controls.Tick | file.js:235 | one frame adds 2.0 to theta[axis] and leaves the other two angles unchanged |
| Controls.Frames | file.js:235 | a run of frames, each turning about the axis the buttons selected by then, adds 2 to an angle for every frame that selects its axis (FramesCount) |
| Controls.FramesCount | file.js:235 | after a run of frames, each angle has grown by 2 times the number of frames that selected its axis |
| Controls.FramesKeepUnselected | file.js:235 | an angle whose axis no frame of the run selects keeps its value |
| Controls.SteadyFramesAccumulate | file.js:235 | n frames about one axis add 2n to that angle and leave the other two as they were |
| Controls.TicksCommute | file.js:235 | frames about two axes give the same angles in either order |
| Controls.HandleRotationKey | file.js:198-206 | a key changes at most one of yaw and pitch, by ±0.1; pitch changes exactly for ArrowUp and ArrowDown, and yaw exactly for ArrowLeft and ArrowRight; ArrowUp raises the pitch, ArrowDown lowers it, ArrowRight raises the yaw and ArrowLeft lowers it |
| Controls.ArrowKeysCancel | file.js:198-206 | Down undoes Up and Right undoes Left, in either order |
| Controls.RotationKeysNet | file.js:198-206 | after any run of keys, pitch moved by 0.1·(ups − downs) and yaw by 0.1·(rights − lefts) |

## Left out

- kaleidoscope.js is not part of this model. It is DOM events, canvas
  resizing, uniform uploads and the animation loop, and it has no logic of
  its own.
- WebGL and DOM calls are not modelled, because they are foreign calls.
  This covers shader and program creation, buffer creation and upload,
  attribute and uniform locations, `drawArrays`, the event wiring and
  `requestAnimationFrame` (file.js:26-89, 104-111, 232, 241-242, 245, 250,
  257, 260).
- `normalize`, `lookAt`, `perspective` and `updateCamera` are not modelled.
  They rest on `Math.sqrt`, `Math.tan`, `Math.sin` and `Math.cos`, so they
  are transcendental floating-point numerics. `Cross`, `Add`, `Subtract` and
  `Scale`, which these use, are modelled.
- `keyDown` and `keyUp` are not modelled. They set flags under
  `event.key.toLowerCase()`, which needs Unicode case mapping. Only
  `updateCamera` reads those flags, and it is left out above.
- The pyramid's clock-driven bobbing, `Math.sin(Date.now() * 0.002)`
  (file.js:249), is not modelled: it reads the wall clock.
- Float32 precision is not modelled. The model computes in exact reals,
  while JavaScript computes in doubles and `Float32Array` rounds to single
  precision. In particular `Controls.ArrowKeysCancel` and
  `Controls.RotationKeysNet` hold exactly over the reals, but only
  approximately for doubles.
- LinearAlgebra.Rotate: takes the cosine and sine of the angle as inputs
  instead of computing them from degrees. The conversion `angle · π / 180`
  and the trigonometry are not modelled.
- LinearAlgebra.Add, LinearAlgebra.Subtract and LinearAlgebra.Dot require
  v to be at least as long as u, and LinearAlgebra.Cross requires both
  arguments to have at least three components. On shorter input JavaScript
  reads `undefined` and produces `NaN`, which the model does not represent.
- LinearAlgebra.Transpose requires a non-empty rectangular matrix, and
  a tagged `LinearAlgebra.Flatten` inherits that requirement. The
  requirement excludes three kinds of input the JavaScript accepts:
  - On `[]` the JavaScript throws reading `m[0].length`.
  - The loop runs over the length of the first row (MV.js:95-98). A row
    shorter than the first makes it read `undefined` entries.
  - A row longer than the first is cut to the first row's length without
    any error: `transpose([[1], [2, 3]])` is `[[1, 2]]`.

  The model does not describe the result of `transpose` on such input.
  Untagged ragged input to `flatten` does not go through `transpose` and is
  modelled as written, by `Fill`: writes past the buffer size are dropped
  and unwritten slots stay 0.
- Scene.Quad requires corner indices below 8. `colorCube` only ever passes
  such indices; a larger one would push `undefined`.
- Controls.Tick requires an axis below 3. Only the three buttons set
  `axis`, and `Controls.Press` shows they store 0, 1 or 2.

=== FILE: controls.dfy ===
/**
 * The two pieces of per-frame and per-event state of the demo: the cube's
 * rotation angles `theta`, advanced every frame about the axis the buttons
 * select, and the camera's `yaw` and `pitch`, nudged by the arrow keys.
 */
module Controls {

  /** The three buttons that pick the rotation axis. */
  datatype Button = XButton | YButton | ZButton

  /** The axis each button's click handler stores. */
  function Press(button: Button): (axis: nat)
    ensures axis < 3
    ensures button == XButton <==> axis == 0
    ensures button == YButton <==> axis == 1
  {
    match button
    case XButton => 0
    case YButton => 1
    case ZButton => 2
  }

  /** The angles `theta` start at zero and the axis at x. */
  const InitialTheta: seq<real> := [0.0, 0.0, 0.0]
  const InitialAxis: nat := 0

  /** One frame's `theta[axis] += 2.0`: the selected angle grows by two
      degrees and the other two are left alone. */
  function Tick(theta: seq<real>, axis: nat): (r: seq<real>)
    requires |theta| == 3 && axis < 3
    ensures |r| == 3
    ensures r[axis] == theta[axis] + 2.0
    ensures forall i :: 0 <= i < 3 && i != axis ==> r[i] == theta[i]
  {
    theta[axis := theta[axis] + 2.0]
  }

  /** Frames about different axes commute: the order of button clicks
      between frames does not matter to the final angles. */
  lemma TicksCommute(theta: seq<real>, a: nat, b: nat)
    requires |theta| == 3 && a < 3 && b < 3
    ensures Tick(Tick(theta, a), b) == Tick(Tick(theta, b), a)
  {
  }

  /** A run of frames, frame `i` turning about `axes[i]`, the axis the
      buttons had selected by then. */
  function Frames(theta: seq<real>, axes: seq<nat>): (r: seq<real>)
    requires |theta| == 3 && forall i :: 0 <= i < |axes| ==> axes[i] < 3
    ensures |r| == 3
    decreases |axes|
  {
    if |axes| == 0 then theta else Frames(Tick(theta, axes[0]), axes[1..])
  }

  /** An angle whose axis no frame of the run selects keeps its value. */
  lemma {:induction false} FramesKeepUnselected(theta: seq<real>, axes: seq<nat>, k: nat)
    requires |theta| == 3 && forall i :: 0 <= i < |axes| ==> axes[i] < 3
    requires k < 3 && forall i :: 0 <= i < |axes| ==> axes[i] != k
    ensures Frames(theta, axes)[k] == theta[k]
    decreases |axes|
  {
    if |axes| > 0 {
      FramesKeepUnselected(Tick(theta, axes[0]), axes[1..], k);
    }
  }

  /** How many times `x` occurs in `xs`. */
  function Occurrences<T(==)>(xs: seq<T>, x: T): (n: nat)
  {
    if |xs| == 0 then 0
    else (if xs[0] == x then 1 else 0) + Occurrences(xs[1..], x)
  }

  /** Over a run of frames each angle grows by two degrees for every frame
      that selects its axis. */
  lemma {:induction false} FramesCount(theta: seq<real>, axes: seq<nat>, k: nat)
    requires |theta| == 3 && forall i :: 0 <= i < |axes| ==> axes[i] < 3
    requires k < 3
    ensures Frames(theta, axes)[k] == theta[k] + 2.0 * Occurrences(axes, k) as real
    decreases |axes|
  {
    if |axes| > 0 {
      FramesCount(Tick(theta, axes[0]), axes[1..], k);
    }
  }

  /** `n` frames in a row about the same axis, as between two button
      clicks. */
  function Steady(axis: nat, n: nat): (axes: seq<nat>)
    ensures |axes| == n && forall i :: 0 <= i < n ==> axes[i] == axis
  {
    if n == 0 then [] else [axis] + Steady(axis, n - 1)
  }

  /** After `n` frames about one axis, its angle has grown by `2n` degrees
      and the others are where they were. */
  lemma {:induction false} SteadyFramesAccumulate(theta: seq<real>, axis: nat, n: nat)
    requires |theta| == 3 && axis < 3
    ensures Frames(theta, Steady(axis, n)) == theta[axis := theta[axis] + 2.0 * n as real]
    decreases n
  {
    if n > 0 {
      assert Steady(axis, n)[1..] == Steady(axis, n - 1);
      SteadyFramesAccumulate(Tick(theta, axis), axis, n - 1);
    }
  }

  /** The camera's heading: `yaw` and `pitch`, in the units the handler
      adds. */
  datatype Orientation = Orientation(yaw: real, pitch: real)

  /** The step each arrow key adds. */
  const Speed: real := 0.1

  /** `handleRotationKeys(event)`: up and down raise and lower the pitch,
      left and right turn the yaw, each by `Speed`; any other key is
      ignored. */
  function HandleRotationKey(o: Orientation, key: string): (r: Orientation)
    ensures r.yaw == o.yaw || r.pitch == o.pitch
    ensures r.pitch - o.pitch in {Speed, -Speed, 0.0}
    ensures r.yaw - o.yaw in {Speed, -Speed, 0.0}
    ensures r.pitch != o.pitch <==> key == "ArrowUp" || key == "ArrowDown"
    ensures r.yaw != o.yaw <==> key == "ArrowLeft" || key == "ArrowRight"
    ensures key == "ArrowUp" ==> r.pitch == o.pitch + Speed
    ensures key == "ArrowDown" ==> r.pitch == o.pitch - Speed
    ensures key == "ArrowLeft" ==> r.yaw == o.yaw - Speed
    ensures key == "ArrowRight" ==> r.yaw == o.yaw + Speed
  {
    if key == "ArrowUp" then o.(pitch := o.pitch + Speed)
    else if key == "ArrowDown" then o.(pitch := o.pitch - Speed)
    else if key == "ArrowLeft" then o.(yaw := o.yaw - Speed)
    else if key == "ArrowRight" then o.(yaw := o.yaw + Speed)
    else o
  }

  /** Down undoes up, and right undoes left. */
  lemma ArrowKeysCancel(o: Orientation)
    ensures HandleRotationKey(HandleRotationKey(o, "ArrowUp"), "ArrowDown") == o
    ensures HandleRotationKey(HandleRotationKey(o, "ArrowDown"), "ArrowUp") == o
    ensures HandleRotationKey(HandleRotationKey(o, "ArrowLeft"), "ArrowRight") == o
    ensures HandleRotationKey(HandleRotationKey(o, "ArrowRight"), "ArrowLeft") == o
  {
  }

  /** A run of key presses, handled in order. */
  function HandleKeyRun(o: Orientation, keys: seq<string>): (r: Orientation)
    decreases |keys|
  {
    if |keys| == 0 then o
    else HandleKeyRun(HandleRotationKey(o, keys[0]), keys[1..])
  }

  /** Only the balance of presses matters: after any run of keys the pitch
      has moved by `Speed` times (ups minus downs) and the yaw by `Speed`
      times (rights minus lefts). */
  lemma {:induction false} RotationKeysNet(o: Orientation, keys: seq<string>)
    ensures HandleKeyRun(o, keys).pitch ==
      o.pitch + Speed * (Occurrences(keys, "ArrowUp") - Occurrences(keys, "ArrowDown")) as real
    ensures HandleKeyRun(o, keys).yaw ==
      o.yaw + Speed * (Occurrences(keys, "ArrowRight") - Occurrences(keys, "ArrowLeft")) as real
    decreases |keys|
  {
    if |keys| > 0 {
      RotationKeysNet(HandleRotationKey(o, keys[0]), keys[1..]);
    }
  }
}

=== FILE: linear_algebra.dfy ===
/**
 The vector and matrix helpers of the demo's math library (MV.js), over
 exact reals. Vectors are sequences of components; a matrix is a sequence
 of row vectors (row-major, as the library stores it).

 The library does no length checking: reading past the end of a JavaScript
 array yields `undefined` and arithmetic on it yields NaN. The model has no
 NaN, so each operation requires the operand lengths its loops read.
 */
module LinearAlgebra {

  type Vector = seq<real>
  type Matrix = seq<Vector>

  /** A 2-vector with the given components. */
  function Vec2(x: real, y: real): (v: Vector)
    ensures |v| == 2
    ensures v[0] == x && v[1] == y
  {
    [x, y]
  }

  /** A 3-vector with the given components. */
  function Vec3(x: real, y: real, z: real): (v: Vector)
    ensures |v| == 3
    ensures v[0] == x && v[1] == y && v[2] == z
  {
    [x, y, z]
  }

  /** A 4-vector (a homogeneous point or an RGBA colour). */
  function Vec4(x: real, y: real, z: real, w: real): (v: Vector)
    ensures |v| == 4
    ensures v[0] == x && v[1] == y && v[2] == z && v[3] == w
  {
    [x, y, z, w]
  }

  /** Every row has exactly `cols` entries. */
  predicate HasCols(m: Matrix, cols: nat)
  {
    forall i :: 0 <= i < |m| ==> |m[i]| == cols
  }

  /** Every row is as long as the first one (no ragged rows). */
  predicate Rectangular(m: Matrix)
  {
    |m| == 0 || HasCols(m, |m[0]|)
  }

  /** A 4x4 matrix. */
  predicate Is4x4(m: Matrix)
  {
    |m| == 4 && HasCols(m, 4)
  }

  /** `mat4()`: a fresh 4x4 identity matrix. */
  function Mat4(): (m: Matrix)
    ensures Is4x4(m)
    ensures forall i, j :: 0 <= i < 4 && 0 <= j < 4 ==> m[i][j] == if i == j then 1.0 else 0.0
  {
    [ [1.0, 0.0, 0.0, 0.0],
      [0.0, 1.0, 0.0, 0.0],
      [0.0, 0.0, 1.0, 0.0],
      [0.0, 0.0, 0.0, 1.0] ]
  }

  /** `transpose(m)`: the result has one row per column of `m`. The source
      reads `m[0].length`, so an empty `m` is an error there. */
  function Transpose(m: Matrix): (t: Matrix)
    requires |m| > 0 && Rectangular(m)
    ensures |t| == |m[0]| && HasCols(t, |m|)
    ensures forall i, j :: 0 <= i < |m[0]| && 0 <= j < |m| ==> t[i][j] == m[j][i]
  {
    seq(|m[0]|, i requires 0 <= i < |m[0]| => seq(|m|, j requires 0 <= j < |m| => m[j][i]))
  }

  /** Transposing twice gives back the matrix, provided it has a column
      (transposing a matrix of empty rows yields `[]`, whose transpose the
      source cannot take). */
  lemma TransposeInvolution(m: Matrix)
    requires |m| > 0 && Rectangular(m) && |m[0]| > 0
    ensures Rectangular(Transpose(m)) && Transpose(Transpose(m)) == m
  {
    var t := Transpose(m);
    var tt := Transpose(t);
    assert |tt| == |m|;
    forall j | 0 <= j < |m|
      ensures tt[j] == m[j]
    {
      assert |tt[j]| == |m[j]|;
      forall i | 0 <= i < |m[j]|
        ensures tt[j][i] == m[j][i]
      {
        assert tt[j][i] == t[i][j];
      }
    }
  }

  /** `add(u, v)`: component-wise sum over the length of `u`. */
  function Add(u: Vector, v: Vector): (r: Vector)
    requires |u| <= |v|
    ensures |r| == |u|
    ensures forall i :: 0 <= i < |u| ==> r[i] == u[i] + v[i]
  {
    seq(|u|, i requires 0 <= i < |u| => u[i] + v[i])
  }

  /** `subtract(u, v)`: component-wise difference over the length of `u`. */
  function Subtract(u: Vector, v: Vector): (r: Vector)
    requires |u| <= |v|
    ensures |r| == |u|
    ensures forall i :: 0 <= i < |u| ==> r[i] == u[i] - v[i]
  {
    seq(|u|, i requires 0 <= i < |u| => u[i] - v[i])
  }

  /** `scale(s, v)`: every component multiplied by `s`. */
  function Scale(s: real, v: Vector): (r: Vector)
    ensures |r| == |v|
    ensures forall i :: 0 <= i < |v| ==> r[i] == s * v[i]
  {
    seq(|v|, i requires 0 <= i < |v| => s * v[i])
  }

  /** Subtracting what was added gives back the original vector. */
  lemma SubtractUndoesAdd(u: Vector, v: Vector)
    requires |u| == |v|
    ensures Subtract(Add(u, v), v) == u
  {
    var r := Subtract(Add(u, v), v);
    assert forall i :: 0 <= i < |u| ==> r[i] == (u[i] + v[i]) - v[i];
  }

  /** Addition of equal-length vectors commutes. */
  lemma AddCommutes(u: Vector, v: Vector)
    requires |u| == |v|
    ensures Add(u, v) == Add(v, u)
  {
    assert forall i :: 0 <= i < |u| ==> Add(u, v)[i] == Add(v, u)[i];
  }

  /** `dot(u, v)`: the sum of products over the length of `u`, accumulated
      from the first component to the last as the source's loop does. */
  function Dot(u: Vector, v: Vector): (d: real)
    requires |u| <= |v|
    decreases |u|
  {
    if |u| == 0 then 0.0
    else Dot(u[..|u| - 1], v) + u[|u| - 1] * v[|u| - 1]
  }

  /** The dot product of two 3-vectors written out. */
  lemma Dot3(u: Vector, v: Vector)
    requires |u| == 3 && |v| == 3
    ensures Dot(u, v) == u[0] * v[0] + u[1] * v[1] + u[2] * v[2]
  {
    assert u[..1][..0] == [];
    assert Dot(u[..1], v) == u[0] * v[0];
    assert u[..2][..1] == u[..1];
    assert Dot(u[..2], v) == Dot(u[..1], v) + u[1] * v[1];
    assert u[..3 - 1] == u[..2];
  }

  /** The dot product does not depend on the order of its operands. */
  lemma {:induction false} DotCommutes(u: Vector, v: Vector)
    requires |u| == |v|
    ensures Dot(u, v) == Dot(v, u)
  {
    if |u| > 0 {
      var n := |u| - 1;
      DotSnoc(u, v);
      DotSnoc(v, u);
      DotCommutes(u[..n], v[..n]);
    }
  }

  /** Only the first `|u|` components of `v` take part in `Dot(u, v)`. */
  lemma {:induction false} DotIgnoresTail(u: Vector, v: Vector, w: Vector)
    requires |u| <= |v| && |u| <= |w|
    requires forall i :: 0 <= i < |u| ==> v[i] == w[i]
    ensures Dot(u, v) == Dot(u, w)
  {
    if |u| > 0 {
      DotIgnoresTail(u[..|u| - 1], v, w);
    }
  }

  /** Peeling the last component off two equal-length vectors. */
  lemma DotSnoc(u: Vector, v: Vector)
    requires |u| == |v| > 0
    ensures Dot(u, v) == Dot(u[..|u| - 1], v[..|u| - 1]) + u[|u| - 1] * v[|u| - 1]
  {
    DotIgnoresTail(u[..|u| - 1], v, v[..|u| - 1]);
  }

  /** A vector's dot product with itself is never negative. */
  lemma {:induction false} DotSelfNonNegative(u: Vector)
    ensures Dot(u, u) >= 0.0
  {
    if |u| > 0 {
      var n := |u| - 1;
      DotIgnoresTail(u[..n], u, u[..n]);
      DotSelfNonNegative(u[..n]);
      assert u[n] * u[n] >= 0.0;
    }
  }

  /** `cross(u, v)`: the cross product of the first three components. */
  function Cross(u: Vector, v: Vector): (r: Vector)
    requires |u| >= 3 && |v| >= 3
    ensures |r| == 3
  {
    [ u[1] * v[2] - u[2] * v[1],
      u[2] * v[0] - u[0] * v[2],
      u[0] * v[1] - u[1] * v[0] ]
  }

  /** Lagrange's identity: the squared length of the cross product is the
      product of the operands' squared lengths less their squared dot
      product. */
  lemma CrossLagrange(u: Vector, v: Vector)
    requires |u| >= 3 && |v| >= 3
    ensures var c := Cross(u, v);
      c[0] * c[0] + c[1] * c[1] + c[2] * c[2] ==
      (u[0] * u[0] + u[1] * u[1] + u[2] * u[2]) * (v[0] * v[0] + v[1] * v[1] + v[2] * v[2]) -
      (u[0] * v[0] + u[1] * v[1] + u[2] * v[2]) * (u[0] * v[0] + u[1] * v[1] + u[2] * v[2])
  {
  }

  /** The cross product of the x and y axes is the z axis, and so round
      the cycle. */
  lemma CrossBasis()
    ensures Cross([1.0, 0.0, 0.0], [0.0, 1.0, 0.0]) == [0.0, 0.0, 1.0]
    ensures Cross([0.0, 1.0, 0.0], [0.0, 0.0, 1.0]) == [1.0, 0.0, 0.0]
    ensures Cross([0.0, 0.0, 1.0], [1.0, 0.0, 0.0]) == [0.0, 1.0, 0.0]
  {
  }

  /** Swapping the operands of the cross product negates it. */
  lemma CrossAntiCommutes(u: Vector, v: Vector)
    requires |u| >= 3 && |v| >= 3
    ensures Cross(u, v) == Scale(-1.0, Cross(v, u))
  {
  }

  /** The cross product is orthogonal to both of its operands. */
  lemma CrossOrthogonal(u: Vector, v: Vector)
    requires |u| == 3 && |v| == 3
    ensures Dot(u, Cross(u, v)) == 0.0
    ensures Dot(v, Cross(u, v)) == 0.0
  {
    CrossComponentsOrthogonal(u, v);
    DotVanishes3(u, Cross(u, v));
    DotVanishes3(v, Cross(u, v));
  }

  /** Two 3-vectors whose component products sum to zero. */
  predicate Perpendicular3(u: Vector, w: Vector)
    requires |u| == 3 && |w| == 3
  {
    u[0] * w[0] + u[1] * w[1] + u[2] * w[2] == 0.0
  }

  /** A dot product of 3-vectors is zero when its written-out sum is. */
  lemma DotVanishes3(u: Vector, w: Vector)
    requires |u| == 3 && |w| == 3 && Perpendicular3(u, w)
    ensures Dot(u, w) == 0.0
  {
    Dot3(u, w);
  }

  /** `CrossOrthogonal` with the dot products written out. */
  lemma CrossComponentsOrthogonal(u: Vector, v: Vector)
    requires |u| == 3 && |v| == 3
    ensures Perpendicular3(u, Cross(u, v)) && Perpendicular3(v, Cross(u, v))
  {
    var w := Cross(u, v);
    TripleProductVanishes(u[0], u[1], u[2], v[0], v[1], v[2], w[0], w[1], w[2]);
  }

  /** The scalar identities behind `CrossOrthogonal`, on plain reals. */
  lemma TripleProductVanishes(a0: real, a1: real, a2: real, b0: real, b1: real, b2: real,
                              w0: real, w1: real, w2: real)
    requires w0 == a1 * b2 - a2 * b1 && w1 == a2 * b0 - a0 * b2 && w2 == a0 * b1 - a1 * b0
    ensures a0 * w0 + a1 * w1 + a2 * w2 == 0.0
    ensures b0 * w0 + b1 * w1 + b2 * w2 == 0.0
  {
    assert a0 * w0 == a0 * a1 * b2 - a0 * a2 * b1;
    assert a1 * w1 == a1 * a2 * b0 - a0 * a1 * b2;
    assert a2 * w2 == a0 * a2 * b1 - a1 * a2 * b0;
    assert b0 * w0 == a1 * b0 * b2 - a2 * b0 * b1;
    assert b1 * w1 == a2 * b0 * b1 - a0 * b1 * b2;
    assert b2 * w2 == a0 * b1 * b2 - a1 * b0 * b2;
  }

  /** `translate(x, y, z)`: the identity with the offsets in the last column. */
  function Translate(x: real, y: real, z: real): (m: Matrix)
    ensures Is4x4(m)
    ensures m[0][3] == x && m[1][3] == y && m[2][3] == z
    ensures forall i, j :: 0 <= i < 4 && 0 <= j < 4 && !(j == 3 && i < 3) ==> m[i][j] == Mat4()[i][j]
  {
    var id := Mat4();
    id[0 := id[0][3 := x]][1 := id[1][3 := y]][2 := id[2][3 := z]]
  }

  /** `rotate(m, angle, axis)`, with `c` and `s` standing for the cosine and
      sine of the angle. The matrix `m` is accepted but never read: the
      result always starts from a fresh identity. */
  function Rotate(m: Matrix, c: real, s: real, axis: Vector): (r: Matrix)
    requires |axis| >= 3
    ensures Is4x4(r)
    ensures r[3] == [0.0, 0.0, 0.0, 1.0]
    ensures r[0][3] == 0.0 && r[1][3] == 0.0 && r[2][3] == 0.0
  {
    var omc := 1.0 - c;
    var x, y, z := axis[0], axis[1], axis[2];
    var id := Mat4();
    [ [x * x * omc + c,     x * y * omc - z * s, x * z * omc + y * s, id[0][3]],
      [y * x * omc + z * s, y * y * omc + c,     y * z * omc - x * s, id[1][3]],
      [z * x * omc - y * s, z * y * omc + x * s, z * z * omc + c,     id[2][3]],
      id[3] ]
  }

  /** The result of `rotate` is the same whatever matrix is passed in. */
  lemma RotateIgnoresBase(m1: Matrix, m2: Matrix, c: real, s: real, axis: Vector)
    requires |axis| >= 3
    ensures Rotate(m1, c, s, axis) == Rotate(m2, c, s, axis)
  {
  }

  /** Rotating by the opposite angle (same cosine, negated sine) gives the
      transpose. For a unit axis and c^2 + s^2 = 1 that transpose is the
      inverse rotation; this model proves neither condition. */
  lemma RotateReverseIsTranspose(m: Matrix, c: real, s: real, axis: Vector)
    requires |axis| >= 3
    ensures Rotate(m, c, -s, axis) == Transpose(Rotate(m, c, s, axis))
  {
    var r := Rotate(m, c, s, axis);
    var t := Transpose(r);
    var q := Rotate(m, c, -s, axis);
    forall i | 0 <= i < 4
      ensures q[i] == t[i]
    {
      forall j | 0 <= j < 4
        ensures q[i][j] == t[i][j]
      {
        assert t[i][j] == r[j][i];
      }
    }
  }

  /** Rotation about the z axis has the familiar planar form. */
  lemma RotateAboutZ(m: Matrix, c: real, s: real)
    ensures Rotate(m, c, s, [0.0, 0.0, 1.0]) ==
      [ [c, -s, 0.0, 0.0],
        [s, c, 0.0, 0.0],
        [0.0, 0.0, 1.0, 0.0],
        [0.0, 0.0, 0.0, 1.0] ]
  {
  }

  /** A JavaScript array handed to `flatten`: either a flat list of numbers,
      or a list of rows, possibly carrying the `matrix` tag. */
  datatype JsArray = Flat(elems: seq<real>) | Nested(rows: Matrix, matrixTag: bool)

  /** What the model of `flatten` asks of its input: a tagged array is
      transposed, which throws on an empty list of rows, reads `undefined`
      from rows shorter than the first and drops the tail of longer ones. */
  predicate CanFlatten(v: JsArray)
  {
    v.Nested? && v.matrixTag ==> |v.rows| > 0 && Rectangular(v.rows)
  }

  /** The rows laid end to end, first row first. */
  function Concat(m: Matrix): (r: seq<real>)
    decreases |m|
  {
    if |m| == 0 then [] else Concat(m[..|m| - 1]) + m[|m| - 1]
  }

  /** A `Float32Array(n)` after writing `xs` from index 0: writes past the
      end are dropped and slots never written stay 0. */
  function Fill(xs: seq<real>, n: nat): (r: seq<real>)
    ensures |r| == n
    ensures forall k :: 0 <= k < n && k < |xs| ==> r[k] == xs[k]
    ensures forall k :: |xs| <= k < n ==> r[k] == 0.0
  {
    seq(n, k requires 0 <= k < n => if k < |xs| then xs[k] else 0.0)
  }

  /** Concatenating `R` rows of `C` entries gives `R*C` entries. */
  lemma {:induction false} ConcatLength(m: Matrix, cols: nat)
    requires HasCols(m, cols)
    ensures |Concat(m)| == |m| * cols
  {
    if |m| > 0 {
      ConcatLength(m[..|m| - 1], cols);
      assert |m| * cols == (|m| - 1) * cols + cols;
    }
  }

  /** In the concatenation of rows of `C` entries, entry `[i][j]` lands at
      `i*C + j`. */
  lemma {:induction false} ConcatIndex(m: Matrix, cols: nat, i: nat, j: nat)
    requires HasCols(m, cols) && i < |m| && j < cols
    ensures i * cols + j < |Concat(m)| && Concat(m)[i * cols + j] == m[i][j]
  {
    var n := |m| - 1;
    var init := m[..n];
    ConcatLength(init, cols);
    assert Concat(m) == Concat(init) + m[n];
    if i < n {
      ConcatIndex(init, cols, i, j);
      assert init[i] == m[i];
    } else {
      assert i * cols + j == |Concat(init)| + j;
    }
  }

  /** The untagged list-of-rows case of `flatten`: a buffer sized by the
      first row, filled with the rows one after another. */
  function FlattenRows(rows: Matrix): (r: seq<real>)
  {
    if |rows| == 0 then [] else Fill(Concat(rows), |rows| * |rows[0]|)
  }

  /** `flatten(v)`: a tagged array is transposed first; then a list of rows
      is laid out row after row, and a flat list is copied. */
  function Flatten(v: JsArray): (r: seq<real>)
    requires CanFlatten(v)
    ensures v.Flat? ==> |r| == |v.elems|
    ensures v.Nested? && |v.rows| > 0 ==> |r| == |v.rows| * |v.rows[0]|
    ensures v.Nested? && |v.rows| == 0 ==> r == []
  {
    match v
    case Flat(elems) => elems
    case Nested(rows, true) => FlattenRows(Transpose(rows))
    case Nested(rows, false) => FlattenRows(rows)
  }

  /** A flat array is copied as it is. */
  lemma FlattenFlatCopies(elems: seq<real>)
    ensures Flatten(Flat(elems)) == elems
  {
  }

  /** An untagged rectangular list of `R` rows of `C` entries flattens to
      `R*C` entries in row-major order: entry `[i][j]` lands at `i*C + j`. */
  lemma FlattenRowMajor(rows: Matrix, i: nat, j: nat)
    requires |rows| > 0 && Rectangular(rows) && i < |rows| && j < |rows[0]|
    ensures var r := Flatten(Nested(rows, false));
      |r| == |rows| * |rows[0]| && i * |rows[0]| + j < |r| && r[i * |rows[0]| + j] == rows[i][j]
  {
    var cols := |rows[0]|;
    var xs := Concat(rows);
    ConcatLength(rows, cols);
    ConcatIndex(rows, cols, i, j);
    assert Flatten(Nested(rows, false)) == Fill(xs, |rows| * cols);
  }

  /** A tagged rectangular list of `R` rows of `C` entries flattens to
      `R*C` entries in column-major order: entry `[i][j]` lands at `j*R + i`. */
  lemma FlattenColumnMajor(rows: Matrix, i: nat, j: nat)
    requires |rows| > 0 && Rectangular(rows) && i < |rows| && j < |rows[0]|
    ensures var r := Flatten(Nested(rows, true));
      |r| == |rows| * |rows[0]| && j * |rows| + i < |r| && r[j * |rows| + i] == rows[i][j]
  {
    var R, C := |rows|, |rows[0]|;
    var t := Transpose(rows);
    assert Rectangular(t) && |t| == C && |t[0]| == R;
    FlattenRowMajor(t, j, i);
    FlattenTaggedIsTransposed(rows);
    assert C * R == R * C;
  }

  /** Tagging an array as a matrix is the same as flattening its transpose. */
  lemma FlattenTaggedIsTransposed(rows: Matrix)
    requires |rows| > 0 && Rectangular(rows)
    ensures Flatten(Nested(rows, true)) == Flatten(Nested(Transpose(rows), false))
  {
  }

  /** `flatten` as the source writes it: transpose if tagged, allocate a
      zero-filled buffer of `|v| * |v[0]|` (or `|v|`) slots, then copy
      entry by entry with a running write index. It computes `Flatten`. */
  method FlattenLoop(v: JsArray) returns (floats: seq<real>)
    requires CanFlatten(v)
    ensures floats == Flatten(v)
  {
    var w := v;
    if w.Nested? && w.matrixTag {
      w := Nested(Transpose(w.rows), false);
    }
    match w
    case Flat(elems) =>
      floats := seq(|elems|, _ => 0.0);
      var i := 0;
      while i < |elems|
        invariant 0 <= i <= |elems| && |floats| == |elems|
        invariant floats[..i] == elems[..i]
      {
        floats := floats[i := elems[i]];
        i := i + 1;
      }
    case Nested(rows, _) =>
      if |rows| == 0 {
        floats := [];
      } else {
        var n := |rows| * |rows[0]|;
        floats := seq(n, _ => 0.0);
        var idx := 0;
        var i := 0;
        while i < |rows|
          invariant 0 <= i <= |rows|
          invariant idx == |Concat(rows[..i])|
          invariant floats == Fill(Concat(rows[..i]), n)
        {
          var j := 0;
          while j < |rows[i]|
            invariant 0 <= j <= |rows[i]|
            invariant idx == |Concat(rows[..i])| + j
            invariant floats == Fill(Concat(rows[..i]) + rows[i][..j], n)
          {
            FillSnoc(Concat(rows[..i]) + rows[i][..j], rows[i][j], n);
            assert rows[i][..j + 1] == rows[i][..j] + [rows[i][j]];
            if idx < n {
              floats := floats[idx := rows[i][j]];
            }
            idx := idx + 1;
            j := j + 1;
          }
          assert rows[..i + 1][..i] == rows[..i];
          assert rows[i][..j] == rows[i];
          i := i + 1;
        }
        assert rows[..i] == rows;
      }
  }

  /** Writing one more value into a `Float32Array` lands at the write index
      if that is in range and is dropped otherwise. */
  lemma FillSnoc(xs: seq<real>, x: real, n: nat)
    ensures Fill(xs + [x], n) == if |xs| < n then Fill(xs, n)[|xs| := x] else Fill(xs, n)
  {
  }

  /** The identity matrix serialises to the same 16 values whether or not it
      is tagged, since it is symmetric. */
  lemma FlattenIdentity()
    ensures Flatten(Nested(Mat4(), false)) == Flatten(Nested(Mat4(), true)) ==
      [1.0, 0.0, 0.0, 0.0, 0.0, 1.0, 0.0, 0.0, 0.0, 0.0, 1.0, 0.0, 0.0, 0.0, 0.0, 1.0]
  {
    var m := Mat4();
    TransposeOf4x4(m, m);
    FlattenFourRows(m);
  }

  /** A 4x4 matrix serialises untagged as its four rows one after another. */
  lemma FlattenFourRows(m: Matrix)
    requires Is4x4(m)
    ensures Flatten(Nested(m, false)) == m[0] + m[1] + m[2] + m[3]
  {
    assert m[..1][..0] == [];
    assert m[..2][..1] == m[..1];
    assert m[..3][..2] == m[..2];
    assert m[..4][..3] == m[..3];
    assert m[..4] == m;
    var xs := Concat(m);
    assert Concat(m[..1]) == m[0];
    assert Concat(m[..2]) == m[0] + m[1];
    assert Concat(m[..3]) == m[0] + m[1] + m[2];
    assert xs == m[0] + m[1] + m[2] + m[3];
    assert Fill(xs, 16) == xs;
  }

  /** `translate` results are never tagged, so they serialise row-major: the
      offsets land at positions 3, 7 and 11. */
  lemma FlattenTranslateRowMajor(x: real, y: real, z: real)
    ensures Flatten(Nested(Translate(x, y, z), false)) ==
      [1.0, 0.0, 0.0, x, 0.0, 1.0, 0.0, y, 0.0, 0.0, 1.0, z, 0.0, 0.0, 0.0, 1.0]
  {
    TranslateRows(x, y, z);
    FlattenFourRows([[1.0, 0.0, 0.0, x], [0.0, 1.0, 0.0, y], [0.0, 0.0, 1.0, z], [0.0, 0.0, 0.0, 1.0]]);
  }

  /** Were a translation tagged, its offsets would land in the last four
      slots, where a column-major reader expects them. */
  lemma FlattenTranslateTagged(x: real, y: real, z: real)
    ensures Flatten(Nested(Translate(x, y, z), true)) ==
      [1.0, 0.0, 0.0, 0.0, 0.0, 1.0, 0.0, 0.0, 0.0, 0.0, 1.0, 0.0, x, y, z, 1.0]
  {
    var m := [[1.0, 0.0, 0.0, x], [0.0, 1.0, 0.0, y], [0.0, 0.0, 1.0, z], [0.0, 0.0, 0.0, 1.0]];
    TranslateRows(x, y, z);
    var e := [[1.0, 0.0, 0.0, 0.0], [0.0, 1.0, 0.0, 0.0], [0.0, 0.0, 1.0, 0.0], [x, y, z, 1.0]];
    TransposeOf4x4(m, e);
    FlattenFourRows(e);
  }

  /** The rows of `translate(x, y, z)`. */
  lemma TranslateRows(x: real, y: real, z: real)
    ensures Translate(x, y, z) ==
      [[1.0, 0.0, 0.0, x], [0.0, 1.0, 0.0, y], [0.0, 0.0, 1.0, z], [0.0, 0.0, 0.0, 1.0]]
  {
    var t := Translate(x, y, z);
    var e := [[1.0, 0.0, 0.0, x], [0.0, 1.0, 0.0, y], [0.0, 0.0, 1.0, z], [0.0, 0.0, 0.0, 1.0]];
    forall i | 0 <= i < 4
      ensures t[i] == e[i]
    {
      assert |t[i]| == 4;
      forall j | 0 <= j < 4
        ensures t[i][j] == e[i][j]
      {
      }
    }
  }

  /** Recognising the transpose of a 4x4 matrix entry by entry. */
  lemma TransposeOf4x4(m: Matrix, e: Matrix)
    requires Is4x4(m) && Is4x4(e)
    requires forall i, j :: 0 <= i < 4 && 0 <= j < 4 ==> e[i][j] == m[j][i]
    ensures Transpose(m) == e
  {
    var t := Transpose(m);
    forall i | 0 <= i < 4
      ensures t[i] == e[i]
    {
      assert |t[i]| == 4;
      forall j | 0 <= j < 4
        ensures t[i][j] == e[i][j]
      {
      }
    }
  }
}

=== FILE: render.dfy ===
/**
 * One frame of `render()`: the three `drawArrays` calls that split the
 * vertex list built by `createMuseumScene`, and the model matrices sent
 * with them. Camera, projection and the clock-driven pyramid bobbing are
 * not modelled; the trigonometry of `rotate` is passed in as cosines and
 * sines.
 */
module Render {
  import opened LinearAlgebra
  import opened Scene
  import opened Controls

  /** `drawArrays(TRIANGLES, first, count)`: the vertices `first` up to
      `first + count - 1`. */
  datatype Range = Range(first: nat, count: nat)

  predicate InRange(r: Range, i: nat)
  {
    r.first <= i < r.first + r.count
  }

  /** The three draw calls of one frame. */
  datatype Frame = Frame(ground: Range, pyramid: Range, cube: Range)

  /** How many of the frame's draw calls include vertex `i`. */
  function Hits(f: Frame, i: nat): nat
  {
    (if InRange(f.ground, i) then 1 else 0) +
    (if InRange(f.pyramid, i) then 1 else 0) +
    (if InRange(f.cube, i) then 1 else 0)
  }

  /** The draw calls stay inside a list of `total` vertices and draw each
      of its vertices exactly once. */
  predicate Partitions(f: Frame, total: nat)
  {
    f.ground.first + f.ground.count <= total &&
    f.pyramid.first + f.pyramid.count <= total &&
    f.cube.first + f.cube.count <= total &&
    forall i: nat :: i < total ==> Hits(f, i) == 1
  }

  /** The ranges `render()` draws from the three counters: the floor after
      the cube and the pyramid, the pyramid after the cube, the cube from
      the start. */
  function DrawRanges(n: Counts): (f: Frame)
    ensures f.ground.count == n.ground && f.pyramid.count == n.pyramid && f.cube.count == n.cube
    ensures f.cube.first == 0
    ensures f.pyramid.first == f.cube.first + f.cube.count
    ensures f.ground.first == f.pyramid.first + f.pyramid.count
    ensures Partitions(f, n.cube + n.pyramid + n.ground)
  {
    Frame(Range(n.cube + n.pyramid, n.ground), Range(n.cube, n.pyramid), Range(0, n.cube))
  }

  /** Whatever the lists held before, the frame's draw calls split the
      museum scene's vertex list exactly. */
  lemma SceneDrawnOnce(b: Buffers)
    ensures var (buf, n) := CreateMuseumScene(b);
      Partitions(DrawRanges(n), |buf.positions|)
  {
  }

  /** From the empty lists `init` starts with, the cube is drawn from
      vertices 0 to 35, the pyramid from 36 to 47 and the floor from 48 to
      53, the whole list. */
  lemma FreshSceneRanges()
    ensures DrawRanges(CreateMuseumScene(Empty).1) == Frame(Range(48, 6), Range(36, 12), Range(0, 36))
    ensures |CreateMuseumScene(Empty).0.positions| == 54 && |CreateMuseumScene(Empty).0.colors| == 54
  {
  }

  /** In the fresh scene the pyramid range is all gold and the floor range
      all dark grey. */
  lemma FreshSceneColors(i: nat)
    requires 36 <= i < 54
    ensures CreateMuseumScene(Empty).0.colors[i] == if i < 48 then Gold else DarkGray
  {
    var buf := CreateMuseumScene(Empty).0;
    assert buf.colors == SceneColors;
    SceneColorsLayout(i);
  }

  /** In the fresh scene every vertex of the floor range lies on the plane
      y = -1. */
  lemma FreshSceneFloor(i: nat)
    requires 48 <= i < 54
    ensures var p := CreateMuseumScene(Empty).0.positions[i]; |p| == 4 && p[1] == -1.0
  {
    var buf := CreateMuseumScene(Empty).0;
    assert buf.positions == ScenePositions;
    SceneGroundLevel(i - 48);
  }

  /** X, Y and Z axes as `render()` passes them to `rotate`. */
  const XAxis: Vector := [1.0, 0.0, 0.0]
  const YAxis: Vector := [0.0, 1.0, 0.0]
  const ZAxis: Vector := [0.0, 0.0, 1.0]

  /** The cube's model matrix: `rotate` about x, then about y, then about
      z, each fed the previous result; `(cx, sx)` and so on are the cosine
      and sine of `theta[0]`, `theta[1]` and `theta[2]`. */
  function CubeModel(cx: real, sx: real, cy: real, sy: real, cz: real, sz: real): (m: Matrix)
    ensures Is4x4(m)
  {
    var mx := Rotate(Mat4(), cx, sx, XAxis);
    var my := Rotate(mx, cy, sy, YAxis);
    Rotate(my, cz, sz, ZAxis)
  }

  /** Because `rotate` ignores the matrix it is given, the chain keeps only
      its last step: the cube turns about z alone, whatever `theta[0]` and
      `theta[1]` are. */
  lemma CubeModelKeepsOnlyLast(cx: real, sx: real, cy: real, sy: real, cz: real, sz: real)
    ensures CubeModel(cx, sx, cy, sy, cz, sz) == Rotate(Mat4(), cz, sz, ZAxis)
    ensures CubeModel(cx, sx, cy, sy, cz, sz) ==
      [ [cz, -sz, 0.0, 0.0],
        [sz, cz, 0.0, 0.0],
        [0.0, 0.0, 1.0, 0.0],
        [0.0, 0.0, 0.0, 1.0] ]
  {
    var my := Rotate(Rotate(Mat4(), cx, sx, XAxis), cy, sy, YAxis);
    RotateIgnoresBase(my, Mat4(), cz, sz, ZAxis);
    RotateAboutZ(Mat4(), cz, sz);
  }

  /** The cube's model matrix is flattened without the matrix tag, so its
      floats are row-major; read column-major, as a uniform upload with
      `transpose = false` reads them, they are the rotation by the opposite
      angle. */
  lemma CubeModelUploadReversed(cx: real, sx: real, cy: real, sy: real, cz: real, sz: real)
    ensures Flatten(Nested(CubeModel(cx, sx, cy, sy, cz, sz), false)) ==
      Flatten(Nested(Rotate(Mat4(), cz, -sz, ZAxis), true))
  {
    CubeModelKeepsOnlyLast(cx, sx, cy, sy, cz, sz);
    var r := Rotate(Mat4(), cz, sz, ZAxis);
    var q := Rotate(Mat4(), cz, -sz, ZAxis);
    RotateReverseIsTranspose(Mat4(), cz, -sz, ZAxis);
    assert -(-sz) == sz;
    assert Transpose(q) == r;
    FlattenTaggedIsTransposed(q);
  }

  /** Until the z button is pressed, the frames only advance `theta[0]`, so
      `theta[2]` stays 0; its cosine 1 and sine 0 make the cube's model
      matrix the identity, and the cube does not turn at all. */
  lemma CubeStillUntilZ(n: nat, cx: real, sx: real, cy: real, sy: real)
    ensures Frames(InitialTheta, Steady(InitialAxis, n))[2] == 0.0
    ensures CubeModel(cx, sx, cy, sy, 1.0, 0.0) == Mat4()
  {
    SteadyFramesAccumulate(InitialTheta, InitialAxis, n);
    CubeModelKeepsOnlyLast(cx, sx, cy, sy, 1.0, 0.0);
  }

  /** The same for any run of frames in which only the x and y buttons have
      been pressed: `theta[2]` is still 0, and the cube's model matrix,
      built from its cosine 1 and sine 0, is the identity. */
  lemma CubeStillWithoutZ(axes: seq<nat>, cx: real, sx: real, cy: real, sy: real)
    requires forall i :: 0 <= i < |axes| ==> axes[i] < 2
    ensures Frames(InitialTheta, axes)[2] == 0.0
    ensures CubeModel(cx, sx, cy, sy, 1.0, 0.0) == Mat4()
  {
    FramesKeepUnselected(InitialTheta, axes, 2);
    CubeModelKeepsOnlyLast(cx, sx, cy, sy, 1.0, 0.0);
  }
}

=== FILE: scene.dfy ===
/**
 The museum scene's geometry builders (file.js). Each builder appends
 vertex positions and vertex colours to two parallel lists that start out
 empty when the page loads; the scene records how many positions each
 object contributed so that the frame loop can draw each object as one
 range of the shared buffer.
 */
module Scene {
  import opened LinearAlgebra

  /** The two parallel lists the builders append to: entry `k` of each is
      the position and colour of one vertex. */
  datatype Buffers = Buffers(positions: seq<Vector>, colors: seq<Vector>)

  /** The lists as `init` leaves them. */
  const Empty: Buffers := Buffers([], [])

  /** Both lists have one entry per vertex. */
  predicate Parallel(b: Buffers)
  {
    |b.positions| == |b.colors|
  }

  /** `after` is `before` with `added` more entries on each list and the
      existing entries left as they were. */
  predicate Extends(before: Buffers, after: Buffers, added: nat)
  {
    && |after.positions| == |before.positions| + added
    && |after.colors| == |before.colors| + added
    && after.positions[..|before.positions|] == before.positions
    && after.colors[..|before.colors|] == before.colors
  }

  /** Appending in two steps is appending the sum. */
  lemma ExtendsTransitive(a: Buffers, b: Buffers, c: Buffers, n: nat, m: nat)
    requires Extends(a, b, n) && Extends(b, c, m)
    ensures Extends(a, c, n + m)
  {
    assert c.positions[..|a.positions|] == c.positions[..|b.positions|][..|a.positions|];
    assert c.colors[..|a.colors|] == c.colors[..|b.colors|][..|a.colors|];
  }

  /** The eight corners of the unit cube centred on the origin. */
  const CubeVertices: seq<Vector> := [
    Vec4(-0.5, -0.5, 0.5, 1.0),
    Vec4(-0.5, 0.5, 0.5, 1.0),
    Vec4(0.5, 0.5, 0.5, 1.0),
    Vec4(0.5, -0.5, 0.5, 1.0),
    Vec4(-0.5, -0.5, -0.5, 1.0),
    Vec4(-0.5, 0.5, -0.5, 1.0),
    Vec4(0.5, 0.5, -0.5, 1.0),
    Vec4(0.5, -0.5, -0.5, 1.0)
  ]

  /** One colour per cube corner: black, red, yellow, green, blue, magenta,
      white, cyan. */
  const CubeColors: seq<Vector> := [
    Vec4(0.0, 0.0, 0.0, 1.0),
    Vec4(1.0, 0.0, 0.0, 1.0),
    Vec4(1.0, 1.0, 0.0, 1.0),
    Vec4(0.0, 1.0, 0.0, 1.0),
    Vec4(0.0, 0.0, 1.0, 1.0),
    Vec4(1.0, 0.0, 1.0, 1.0),
    Vec4(1.0, 1.0, 1.0, 1.0),
    Vec4(0.0, 1.0, 1.0, 1.0)
  ]

  const Gold: Vector := Vec4(1.0, 0.8, 0.0, 1.0)
  const DarkGray: Vector := Vec4(0.3, 0.3, 0.3, 1.0)

  /** Every index picks an entry of a table of `n` entries. */
  predicate IndicesBelow(indices: seq<nat>, n: nat)
  {
    forall k :: 0 <= k < |indices| ==> indices[k] < n
  }

  /** The table entries the indices pick, in index order. */
  function Gather(table: seq<Vector>, indices: seq<nat>): seq<Vector>
    requires IndicesBelow(indices, |table|)
  {
    seq(|indices|, k requires 0 <= k < |indices| => table[indices[k]])
  }

  /** `n` copies of one value. */
  function Repeat(v: Vector, n: nat): seq<Vector>
  {
    seq(n, _ => v)
  }

  /** The push loop of `quad`: for each index, push that corner's position
      and that corner's colour. */
  function EmitCorners(b: Buffers, verts: seq<Vector>, cols: seq<Vector>, indices: seq<nat>): (r: Buffers)
    requires IndicesBelow(indices, |verts|) && IndicesBelow(indices, |cols|)
    ensures r.positions == b.positions + Gather(verts, indices)
    ensures r.colors == b.colors + Gather(cols, indices)
    decreases |indices|
  {
    if |indices| == 0 then b
    else
      var next := Buffers(b.positions + [verts[indices[0]]], b.colors + [cols[indices[0]]]);
      var r := EmitCorners(next, verts, cols, indices[1..]);
      assert Gather(verts, indices) == [verts[indices[0]]] + Gather(verts, indices[1..]);
      assert Gather(cols, indices) == [cols[indices[0]]] + Gather(cols, indices[1..]);
      r
  }

  /** The push loop of `createPyramid` and `createGround`: for each index,
      push that vertex's position and one fixed colour. */
  function EmitUniform(b: Buffers, verts: seq<Vector>, color: Vector, indices: seq<nat>): (r: Buffers)
    requires IndicesBelow(indices, |verts|)
    ensures r.positions == b.positions + Gather(verts, indices)
    ensures r.colors == b.colors + Repeat(color, |indices|)
    decreases |indices|
  {
    if |indices| == 0 then b
    else
      var next := Buffers(b.positions + [verts[indices[0]]], b.colors + [color]);
      var r := EmitUniform(next, verts, color, indices[1..]);
      assert Gather(verts, indices) == [verts[indices[0]]] + Gather(verts, indices[1..]);
      assert Repeat(color, |indices|) == [color] + Repeat(color, |indices| - 1);
      r
  }

  /** Appending `extra` to each list extends the buffers by that many. */
  lemma AppendExtends(b: Buffers, ps: seq<Vector>, cs: seq<Vector>)
    requires |ps| == |cs|
    ensures Extends(b, Buffers(b.positions + ps, b.colors + cs), |ps|)
  {
    assert (b.positions + ps)[..|b.positions|] == b.positions;
    assert (b.colors + cs)[..|b.colors|] == b.colors;
  }

  /** The two triangles `quad` cuts a face into: `a b c` and `a c d`. */
  function QuadIndices(a: nat, b: nat, c: nat, d: nat): seq<nat>
  {
    [a, b, c, a, c, d]
  }

  /** `quad(a, b, c, d)`: two triangles over four cube corners, each vertex
      coloured by its corner. */
  function Quad(buf: Buffers, a: nat, b: nat, c: nat, d: nat): (r: Buffers)
    requires a < 8 && b < 8 && c < 8 && d < 8
    ensures r.positions == buf.positions + Gather(CubeVertices, QuadIndices(a, b, c, d))
    ensures r.colors == buf.colors + Gather(CubeColors, QuadIndices(a, b, c, d))
  {
    EmitCorners(buf, CubeVertices, CubeColors, QuadIndices(a, b, c, d))
  }

  /** The corner indices the cube's 36 triangle vertices visit: the six
      faces `colorCube` passes to `quad`, two triangles each. */
  const CubeTriangleCorners: seq<nat> :=
    QuadIndices(1, 0, 3, 2) + QuadIndices(2, 3, 7, 6) + QuadIndices(3, 0, 4, 7) +
    QuadIndices(6, 5, 1, 2) + QuadIndices(4, 5, 6, 7) + QuadIndices(5, 4, 0, 1)

  /** Running the push loop over two index lists in turn is running it
      over their concatenation. */
  lemma {:induction false} EmitCornersAppend(b: Buffers, verts: seq<Vector>, cols: seq<Vector>, i1: seq<nat>, i2: seq<nat>)
    requires IndicesBelow(i1, |verts|) && IndicesBelow(i1, |cols|)
    requires IndicesBelow(i2, |verts|) && IndicesBelow(i2, |cols|)
    ensures IndicesBelow(i1 + i2, |verts|) && IndicesBelow(i1 + i2, |cols|)
    ensures EmitCorners(EmitCorners(b, verts, cols, i1), verts, cols, i2) == EmitCorners(b, verts, cols, i1 + i2)
    decreases |i1|
  {
    assert IndicesBelow(i1 + i2, |verts|) && IndicesBelow(i1 + i2, |cols|);
    if |i1| == 0 {
      assert i1 + i2 == i2;
    } else {
      var next := Buffers(b.positions + [verts[i1[0]]], b.colors + [cols[i1[0]]]);
      EmitCornersAppend(next, verts, cols, i1[1..], i2);
      assert (i1 + i2)[1..] == i1[1..] + i2;
    }
  }

  /** `colorCube()`: the six faces, one `quad` each. Together they are
      the push loop of `quad` run over all 36 triangle corners: the cube's
      vertices face by face, each coloured by the cube corner it sits on. */
  function ColorCube(b: Buffers): (r: Buffers)
    ensures IndicesBelow(CubeTriangleCorners, 8)
    ensures r.positions == b.positions + Gather(CubeVertices, CubeTriangleCorners)
    ensures r.colors == b.colors + Gather(CubeColors, CubeTriangleCorners)
  {
    var r := Quad(Quad(Quad(Quad(Quad(Quad(b, 1, 0, 3, 2), 2, 3, 7, 6), 3, 0, 4, 7), 6, 5, 1, 2), 4, 5, 6, 7), 5, 4, 0, 1);
    ColorCubeIsOneLoop(b);
    r
  }

  /** A `quad` after the push loop over `indices` extends that loop by the
      quad's six corners. */
  lemma QuadAfterLoop(b: Buffers, indices: seq<nat>, qa: nat, qb: nat, qc: nat, qd: nat)
    requires IndicesBelow(indices, 8) && qa < 8 && qb < 8 && qc < 8 && qd < 8
    ensures IndicesBelow(indices + QuadIndices(qa, qb, qc, qd), 8)
    ensures Quad(EmitCorners(b, CubeVertices, CubeColors, indices), qa, qb, qc, qd)
      == EmitCorners(b, CubeVertices, CubeColors, indices + QuadIndices(qa, qb, qc, qd))
  {
    EmitCornersAppend(b, CubeVertices, CubeColors, indices, QuadIndices(qa, qb, qc, qd));
  }

  /** The six face loops of `colorCube` make one loop over all 36 corners. */
  lemma ColorCubeIsOneLoop(b: Buffers)
    ensures IndicesBelow(CubeTriangleCorners, 8)
    ensures Quad(Quad(Quad(Quad(Quad(Quad(b, 1, 0, 3, 2), 2, 3, 7, 6), 3, 0, 4, 7), 6, 5, 1, 2), 4, 5, 6, 7), 5, 4, 0, 1)
      == EmitCorners(b, CubeVertices, CubeColors, CubeTriangleCorners)
  {
    var f0, f1, f2 := QuadIndices(1, 0, 3, 2), QuadIndices(2, 3, 7, 6), QuadIndices(3, 0, 4, 7);
    var f3, f4 := QuadIndices(6, 5, 1, 2), QuadIndices(4, 5, 6, 7);
    var b1 := Quad(b, 1, 0, 3, 2);
    assert b1 == EmitCorners(b, CubeVertices, CubeColors, f0);
    QuadAfterLoop(b, f0, 2, 3, 7, 6);
    QuadAfterLoop(b, f0 + f1, 3, 0, 4, 7);
    QuadAfterLoop(b, f0 + f1 + f2, 6, 5, 1, 2);
    QuadAfterLoop(b, f0 + f1 + f2 + f3, 4, 5, 6, 7);
    QuadAfterLoop(b, f0 + f1 + f2 + f3 + f4, 5, 4, 0, 1);
  }

  /** The five vertices of the pyramid: apex, then the four base corners,
      offset by `(x, y, z)`. */
  function PyramidVertices(x: real, y: real, z: real): (vs: seq<Vector>)
    ensures |vs| == 5
  {
    [ Vec4(x + 0.0, y + 1.0, z + 0.0, 1.0),
      Vec4(x - 1.0, y - 1.0, z + 1.0, 1.0),
      Vec4(x + 1.0, y - 1.0, z + 1.0, 1.0),
      Vec4(x + 1.0, y - 1.0, z - 1.0, 1.0),
      Vec4(x - 1.0, y - 1.0, z - 1.0, 1.0) ]
  }

  /** The pyramid's four side triangles, each from the apex to two
      neighbouring base corners. */
  const PyramidIndices: seq<nat> := [0, 1, 2, 0, 2, 3, 0, 3, 4, 0, 4, 1]

  /** `createPyramid(x, y, z)`: the four side triangles, twelve gold
      vertices in all. */
  function CreatePyramid(b: Buffers, x: real, y: real, z: real): (r: Buffers)
    ensures IndicesBelow(PyramidIndices, 5)
    ensures r.positions == b.positions + Gather(PyramidVertices(x, y, z), PyramidIndices)
    ensures r.colors == b.colors + Repeat(Gold, 12)
  {
    EmitUniform(b, PyramidVertices(x, y, z), Gold, PyramidIndices)
  }

  /** Half the side of the ground square. */
  const GroundSize: real := 10.0

  /** The four corners of the floor, one unit below the origin. */
  const GroundVertices: seq<Vector> := [
    Vec4(-GroundSize, -1.0, -GroundSize, 1.0),
    Vec4(-GroundSize, -1.0, GroundSize, 1.0),
    Vec4(GroundSize, -1.0, GroundSize, 1.0),
    Vec4(GroundSize, -1.0, -GroundSize, 1.0)
  ]

  const GroundIndices: seq<nat> := [0, 1, 2, 0, 2, 3]

  /** `createGround()`: the floor square as two dark-grey triangles. */
  function CreateGround(b: Buffers): (r: Buffers)
    ensures IndicesBelow(GroundIndices, 4)
    ensures r.positions == b.positions + Gather(GroundVertices, GroundIndices)
    ensures r.colors == b.colors + Repeat(DarkGray, 6)
  {
    EmitUniform(b, GroundVertices, DarkGray, GroundIndices)
  }

  /** The three counters `createMuseumScene` sets. */
  datatype Counts = Counts(cube: nat, pyramid: nat, ground: nat)

  /** The positions and colours the museum scene appends: the cube, the
      pyramid offset by (0, 1, -2), then the floor. */
  const ScenePositions: seq<Vector> :=
    Gather(CubeVertices, CubeTriangleCorners) +
    Gather(PyramidVertices(0.0, 1.0, -2.0), PyramidIndices) +
    Gather(GroundVertices, GroundIndices)
  const SceneColors: seq<Vector> :=
    Gather(CubeColors, CubeTriangleCorners) + Repeat(Gold, 12) + Repeat(DarkGray, 6)

  /** `createMuseumScene()`: cube, then pyramid, then floor, each appended
      after what is already there. The cube counter is read as the whole
      list's length, the other two as what was added since the previous
      counter. */
  function CreateMuseumScene(b: Buffers): (r: (Buffers, Counts))
    ensures r.0.positions == b.positions + ScenePositions
    ensures r.0.colors == b.colors + SceneColors
    ensures r.1.cube == |b.positions| + 36 && r.1.pyramid == 12 && r.1.ground == 6
    ensures r.1.cube + r.1.pyramid + r.1.ground == |r.0.positions|
  {
    var afterCube := ColorCube(b);
    var cube := |afterCube.positions|;
    var afterPyramid := CreatePyramid(afterCube, 0.0, 1.0, -2.0);
    var pyramid := |afterPyramid.positions| - cube;
    var afterGround := CreateGround(afterPyramid);
    var ground := |afterGround.positions| - cube - pyramid;
    CubeTriangleCornersLength();
    AppendThree(b.positions, Gather(CubeVertices, CubeTriangleCorners),
      Gather(PyramidVertices(0.0, 1.0, -2.0), PyramidIndices), Gather(GroundVertices, GroundIndices));
    AppendThree(b.colors, Gather(CubeColors, CubeTriangleCorners), Repeat(Gold, 12), Repeat(DarkGray, 6));
    (afterGround, Counts(cube, pyramid, ground))
  }

  /** Six faces of six triangle corners each. */
  lemma CubeTriangleCornersLength()
    ensures |CubeTriangleCorners| == 36
  {
  }

  /** Appending three lists one at a time is appending their concatenation. */
  lemma AppendThree(a: seq<Vector>, x: seq<Vector>, y: seq<Vector>, z: seq<Vector>)
    ensures a + x + y + z == a + (x + y + z)
  {
  }

  /** `quad` only appends, six positions and six colours, so lists that
      are parallel stay parallel. */
  lemma QuadKeepsListsParallel(b: Buffers, qa: nat, qb: nat, qc: nat, qd: nat)
    requires Parallel(b) && qa < 8 && qb < 8 && qc < 8 && qd < 8
    ensures Parallel(Quad(b, qa, qb, qc, qd)) && Extends(b, Quad(b, qa, qb, qc, qd), 6)
  {
    AppendExtends(b, Gather(CubeVertices, QuadIndices(qa, qb, qc, qd)), Gather(CubeColors, QuadIndices(qa, qb, qc, qd)));
  }

  /** `colorCube` only appends, 36 positions and 36 colours. */
  lemma ColorCubeKeepsListsParallel(b: Buffers)
    requires Parallel(b)
    ensures Parallel(ColorCube(b)) && Extends(b, ColorCube(b), 36)
  {
    AppendExtends(b, Gather(CubeVertices, CubeTriangleCorners), Gather(CubeColors, CubeTriangleCorners));
  }

  /** `createPyramid` only appends, 12 positions and 12 colours. */
  lemma PyramidKeepsListsParallel(b: Buffers, x: real, y: real, z: real)
    requires Parallel(b)
    ensures Parallel(CreatePyramid(b, x, y, z)) && Extends(b, CreatePyramid(b, x, y, z), 12)
  {
    AppendExtends(b, Gather(PyramidVertices(x, y, z), PyramidIndices), Repeat(Gold, 12));
  }

  /** `createGround` only appends, 6 positions and 6 colours. */
  lemma GroundKeepsListsParallel(b: Buffers)
    requires Parallel(b)
    ensures Parallel(CreateGround(b)) && Extends(b, CreateGround(b), 6)
  {
    AppendExtends(b, Gather(GroundVertices, GroundIndices), Repeat(DarkGray, 6));
  }

  /** The whole scene only appends, 54 positions and 54 colours, so the
      lists stay parallel from `init` on. */
  lemma SceneKeepsListsParallel(b: Buffers)
    requires Parallel(b)
    ensures Parallel(CreateMuseumScene(b).0) && Extends(b, CreateMuseumScene(b).0, 54)
  {
    var cube := ColorCube(b);
    var pyramid := CreatePyramid(cube, 0.0, 1.0, -2.0);
    var ground := CreateGround(pyramid);
    ColorCubeKeepsListsParallel(b);
    PyramidKeepsListsParallel(cube, 0.0, 1.0, -2.0);
    GroundKeepsListsParallel(pyramid);
    ExtendsTransitive(b, cube, pyramid, 36, 12);
    ExtendsTransitive(b, pyramid, ground, 48, 6);
    assert CreateMuseumScene(b).0 == ground;
  }

  /** Each vertex `quad` appends carries the colour of the cube corner its
      position comes from. */
  lemma QuadMatchesCorners(buf: Buffers, qa: nat, qb: nat, qc: nat, qd: nat, k: nat)
    requires qa < 8 && qb < 8 && qc < 8 && qd < 8 && k < 6
    ensures var r := Quad(buf, qa, qb, qc, qd);
      var corner := QuadIndices(qa, qb, qc, qd)[k];
      r.positions[|buf.positions| + k] == CubeVertices[corner] && r.colors[|buf.colors| + k] == CubeColors[corner]
  {
  }

  /** No two cube corners share a position. */
  lemma CubeVerticesDistinct(i: nat, j: nat)
    requires i < 8 && j < 8 && CubeVertices[i] == CubeVertices[j]
    ensures i == j
  {
    var p, q := CubeVertices[i], CubeVertices[j];
    assert p[0] == q[0] && p[1] == q[1] && p[2] == q[2];
  }

  /** In the cube's vertex list a vertex's colour is fixed by its position:
      two entries at the same corner have the same colour. */
  lemma CubeColorFollowsPosition(b: Buffers, k1: nat, k2: nat)
    requires k1 < 36 && k2 < 36
    requires ColorCube(b).positions[|b.positions| + k1] == ColorCube(b).positions[|b.positions| + k2]
    ensures ColorCube(b).colors[|b.colors| + k1] == ColorCube(b).colors[|b.colors| + k2]
  {
    ColorCubeAt(b, k1);
    ColorCubeAt(b, k2);
    CubeVerticesDistinct(CubeTriangleCorners[k1], CubeTriangleCorners[k2]);
  }

  /** No two cube corners share a colour. */
  lemma CubeColorsDistinct(i: nat, j: nat)
    requires i < 8 && j < 8 && CubeColors[i] == CubeColors[j]
    ensures i == j
  {
    var p, q := CubeColors[i], CubeColors[j];
    assert p[0] == q[0] && p[1] == q[1] && p[2] == q[2];
  }

  /** The converse: in the cube's vertex list a vertex's position is fixed
      by its colour, so two entries with the same colour sit at the same
      corner. */
  lemma CubePositionFollowsColor(b: Buffers, k1: nat, k2: nat)
    requires k1 < 36 && k2 < 36
    requires ColorCube(b).colors[|b.colors| + k1] == ColorCube(b).colors[|b.colors| + k2]
    ensures ColorCube(b).positions[|b.positions| + k1] == ColorCube(b).positions[|b.positions| + k2]
  {
    ColorCubeAt(b, k1);
    ColorCubeAt(b, k2);
    CubeColorsDistinct(CubeTriangleCorners[k1], CubeTriangleCorners[k2]);
  }

  /** The cube's triangle corners written out. */
  lemma CubeTriangleCornersTable()
    ensures CubeTriangleCorners == [
      1, 0, 3, 1, 3, 2,
      2, 3, 7, 2, 7, 6,
      3, 0, 4, 3, 4, 7,
      6, 5, 1, 6, 1, 2,
      4, 5, 6, 4, 6, 7,
      5, 4, 0, 5, 0, 1 ]
  {
  }

  /** Every cube corner has each coordinate at plus or minus a half and
      w = 1. */
  lemma CornerOnCube(c: nat)
    requires c < 8
    ensures var p := CubeVertices[c];
      |p| == 4 && p[3] == 1.0 && (p[0] == 0.5 || p[0] == -0.5) && (p[1] == 0.5 || p[1] == -0.5) && (p[2] == 0.5 || p[2] == -0.5)
  {
    if c == 0 {} else if c == 1 {} else if c == 2 {} else if c == 3 {}
    else if c == 4 {} else if c == 5 {} else if c == 6 {} else {}
  }

  /** Each vertex `colorCube` appends is a corner of the cube: every
      coordinate is a half, in absolute value, and w is 1. */
  lemma CubeVerticesOnCorners(b: Buffers, k: nat)
    requires k < 36
    ensures var p := ColorCube(b).positions[|b.positions| + k];
      |p| == 4 && p[3] == 1.0 && (p[0] == 0.5 || p[0] == -0.5) && (p[1] == 0.5 || p[1] == -0.5) && (p[2] == 0.5 || p[2] == -0.5)
  {
    ColorCubeAt(b, k);
    CornerOnCube(CubeTriangleCorners[k]);
  }

  /** Vertex `k` that `colorCube` appends has the position and the colour
      of the cube corner its index names. */
  lemma ColorCubeAt(b: Buffers, k: nat)
    requires k < 36
    ensures CubeTriangleCorners[k] < 8
    ensures ColorCube(b).positions[|b.positions| + k] == CubeVertices[CubeTriangleCorners[k]]
    ensures ColorCube(b).colors[|b.colors| + k] == CubeColors[CubeTriangleCorners[k]]
  {
  }

  /** Face `f` of the cube (vertices `6f .. 6f+5` of `colorCube`) lies in the
      plane where coordinate `FaceAxis(f)` equals `FaceSide[f]`. */
  function FaceAxis(f: nat): (a: nat)
    requires f < 6
    ensures a < 3
  {
    [2, 0, 1, 1, 2, 0][f]
  }

  const FaceSide: seq<real> := [0.5, 0.5, -0.5, 0.5, -0.5, -0.5]

  /** The corners of face `f` lie on its side of the cube. */
  lemma FaceCornersOnSide(f: nat, t: nat)
    requires f < 6 && t < 6
    ensures CubeTriangleCorners[6 * f + t] < 8
    ensures CubeVertices[CubeTriangleCorners[6 * f + t]][FaceAxis(f)] == FaceSide[f]
  {
    CubeTriangleCornersTable();
    if f == 0 {
      assert CubeTriangleCorners[t] in {1, 0, 3, 2};
    } else if f == 1 {
      assert CubeTriangleCorners[6 + t] in {2, 3, 7, 6};
    } else if f == 2 {
      assert CubeTriangleCorners[12 + t] in {3, 0, 4, 7};
    } else if f == 3 {
      assert CubeTriangleCorners[18 + t] in {6, 5, 1, 2};
    } else if f == 4 {
      assert CubeTriangleCorners[24 + t] in {4, 5, 6, 7};
    } else {
      assert CubeTriangleCorners[30 + t] in {5, 4, 0, 1};
    }
  }

  /** No two faces share a side: the six (axis, side) pairs are distinct. */
  lemma FaceSidesDistinct(f: nat, g: nat)
    requires f < 6 && g < 6 && f != g
    ensures FaceAxis(g) != FaceAxis(f) || FaceSide[g] != FaceSide[f]
  {
  }

  /** Every face `colorCube` emits is flat against one side of the cube;
      with `FaceSidesDistinct`, the six faces lie on six different sides. */
  lemma CubeFacesAreSides(b: Buffers, f: nat, t: nat)
    requires f < 6 && t < 6
    ensures var p := ColorCube(b).positions[|b.positions| + 6 * f + t];
      |p| == 4 && p[FaceAxis(f)] == FaceSide[f]
  {
    FaceCornersOnSide(f, t);
    var k := 6 * f + t;
    ColorCubeAt(b, k);
    CornerOnCube(CubeTriangleCorners[k]);
    assert |b.positions| + 6 * f + t == |b.positions| + k;
  }

  /** The pyramid: every triangle starts at the apex one unit above the
      offset point and continues to two base corners one unit below it, each
      one unit out along x and along z. */
  lemma PyramidShape(b: Buffers, x: real, y: real, z: real, k: nat)
    requires k < 12
    ensures var p := CreatePyramid(b, x, y, z).positions[|b.positions| + k];
      |p| == 4 && p[3] == 1.0 &&
      if k % 3 == 0 then p[0] == x && p[1] == y + 1.0 && p[2] == z
      else p[1] == y - 1.0 && (p[0] == x - 1.0 || p[0] == x + 1.0) && (p[2] == z - 1.0 || p[2] == z + 1.0)
    ensures CreatePyramid(b, x, y, z).colors[|b.colors| + k] == Gold
  {
    var i := PyramidIndices[k];
    assert CreatePyramid(b, x, y, z).positions[|b.positions| + k] == PyramidVertices(x, y, z)[i];
    PyramidApexFirst(k);
    PyramidVertex(x, y, z, i);
  }

  /** Every third pyramid corner, and only those, is the apex. */
  lemma PyramidApexFirst(k: nat)
    requires k < 12
    ensures PyramidIndices[k] < 5
    ensures PyramidIndices[k] == 0 <==> k % 3 == 0
  {
    if k < 3 {} else if k < 6 {} else if k < 9 {} else {}
  }

  /** Vertex 0 of the pyramid is its apex; vertices 1 to 4 are base corners. */
  lemma PyramidVertex(x: real, y: real, z: real, i: nat)
    requires i < 5
    ensures var p := PyramidVertices(x, y, z)[i];
      |p| == 4 && p[3] == 1.0 &&
      if i == 0 then p[0] == x && p[1] == y + 1.0 && p[2] == z
      else p[1] == y - 1.0 && (p[0] == x - 1.0 || p[0] == x + 1.0) && (p[2] == z - 1.0 || p[2] == z + 1.0)
  {
    if i == 0 {} else if i == 1 {} else if i == 2 {} else if i == 3 {} else {}
  }

  /** The floor: six dark-grey vertices on the plane y = -1 at the corners of
      a square of side 20 centred under the origin. */
  lemma GroundShape(b: Buffers, k: nat)
    requires k < 6
    ensures var p := CreateGround(b).positions[|b.positions| + k];
      |p| == 4 && p[1] == -1.0 && p[3] == 1.0 &&
      (p[0] == GroundSize || p[0] == -GroundSize) && (p[2] == GroundSize || p[2] == -GroundSize)
    ensures CreateGround(b).colors[|b.colors| + k] == DarkGray
  {
    var i := GroundIndices[k];
    assert CreateGround(b).positions[|b.positions| + k] == GroundVertices[i];
  }

  /** Every floor corner lies on the plane y = -1. */
  lemma GroundVertexLevel(i: nat)
    requires i < 4
    ensures |GroundVertices[i]| == 4 && GroundVertices[i][1] == -1.0
  {
    if i == 0 {} else if i == 1 {} else if i == 2 {} else {}
  }

  /** Concatenating three lists and indexing into the third. */
  lemma IndexThird<T>(a: seq<T>, b: seq<T>, c: seq<T>, k: nat)
    requires k < |c|
    ensures (a + b + c)[|a| + |b| + k] == c[k]
  {
  }

  /** The scene's colours: the cube's 36, then twelve gold, then six dark
      grey. */
  lemma SceneColorsLayout(i: nat)
    requires 36 <= i < 54
    ensures |SceneColors| == 54
    ensures SceneColors[i] == if i < 48 then Gold else DarkGray
  {
    var cube := Gather(CubeColors, CubeTriangleCorners);
    if i < 48 {
      assert SceneColors[i] == Repeat(Gold, 12)[i - 36];
    } else {
      IndexThird(cube, Repeat(Gold, 12), Repeat(DarkGray, 6), i - 48);
    }
  }

  /** The last six scene positions are the floor's, all at y = -1. */
  lemma SceneGroundLevel(k: nat)
    requires k < 6
    ensures |ScenePositions| == 54
    ensures |ScenePositions[48 + k]| == 4 && ScenePositions[48 + k][1] == -1.0
  {
    var cube := Gather(CubeVertices, CubeTriangleCorners);
    var pyramid := Gather(PyramidVertices(0.0, 1.0, -2.0), PyramidIndices);
    var ground := Gather(GroundVertices, GroundIndices);
    IndexThird(cube, pyramid, ground, k);
    GroundVertexLevel(GroundIndices[k]);
  }
}
